=== FILE: README.md ===
# Cache-aside gateway — a Dafny model

This project models the cache-aside core of a small Node.js HTTP gateway
(`server.js`). The gateway answers two read queries. "Games by genre" is
backed by PostgreSQL. "Paginated Pokémon listing" is backed by a public
HTTP API. Both use Redis as a read-through cache with fixed TTLs. Two
administration endpoints flush the cache and list its keys.

Everything around the cache logic is plumbing (Express, the Redis, pg-promise
and axios clients). In the model it becomes parameters:

- **Cache store** (`cache_store.dfy`, module `CacheStore`). An immutable
  `Store<V>` is a map from string keys to `(value, expiresAt)` plus a logical
  clock in seconds. It offers `Get` (GET), `SetEx` (SETEX), `FlushAll`
  (FLUSHALL), `Keys` (KEYS "*") and `Advance` (time passing). An entry is
  visible while `now < expiresAt`.
- **Key derivation** (`cache_keys.dfy`, module `CacheKeys`). Games use
  `"genre:" + genre`. The listing uses `"pokemon:limit" + limit + ":offset" + offset`
  after `limit || "10"` and `offset || "0"`. JavaScript truthiness of a query
  value (absent or `""` is falsy) is `Present`.
- **Handlers** (`handlers.dfy`, module `Handlers`). `HandleGames`,
  `HandlePokemon` and `HandleFlush` are pure step functions from a cache
  state and the collaborators' behaviour to `(response, new cache)`.
  `HandleKeys` is a method, because KEYS returns the keys in no promised order.
  Three things are parameters:
  - Redis failures, as `CacheFaults(onGet, onSet)`;
  - the SQL query, as `db: string -> Attempt<seq<Row>>`, applied to the genre;
  - the upstream call, as `api: string -> Attempt<Option<ApiBody>>`, applied
    to the request URL.

  "The origin is not touched" is stated as "the result does not depend on
  `db`/`api`".
- **Cross-call properties** (`handler_properties.dfy`) cover these cases:
  - a hit leaves the cache unchanged;
  - a miss followed by a repeat request within the TTL is a hit with the same
    payload;
  - a 404 is never cached;
  - the parameter defaults;
  - the error mapping.
- **State machine** (`server.dfy`). A run is a sequence of requests and clock
  advances. `Consistent` holds for every state reachable from an empty cache.
  It says every entry holds a non-empty answer, expires within 3600 seconds,
  and has a key of one of the two schemes that matches its payload kind.

Three points of the code's behaviour that are easy to misread:

- The 200 `source` values name the backend: `"redis"`, `"postgresql"` or
  `"public-api"`.
- `limit`/`offset` are defaulted only when absent or empty, and otherwise
  used verbatim, so the listing keys of arbitrary strings can collide
  (`CacheKeys.PokemonKeyCollides`). Injectivity is proved only under the added assumption that both parameters
  are digit strings (`CacheKeys.PokemonKeyInjectiveOnDigits`).
- In `/pokemon` the `ECONNABORTED` test in the catch block applies to every
  thrown error, including Redis errors. The model does the same.

## Model

| member | source | states |
|---|---|---|
| CacheStore.Get | server.js:87-89 | a value is returned exactly when the key holds an entry that has not expired, and it is that entry's value; its partners are `SetEx`'s read-back and frame clauses and `GetAfterSetEx` |
| CacheStore.SetEx | server.js:118 | after SETEX the key reads back the written value, expires `ttl` seconds from now, and every other key reads as before |
| CacheStore.FlushAll | server.js:232 | after FLUSHALL no key reads back and the key set is empty |
| CacheStore.Advance | server.js:118 | time passing keeps the stored entries and can only make keys expire, never revive them |
| CacheStore.Keys | server.js:251 | KEYS "*" lists every live key exactly once and nothing else |
| CacheStore.GetAfterSetEx | server.js:118 | a value written with SETEX is read back unchanged for `ttl` seconds, and is absent from then on |
| CacheStore.FlushAllIdempotent | server.js:232 | flushing an already flushed cache changes nothing |
| CacheKeys.Present | server.js:75 | a query value is truthy exactly when it was supplied and is not the empty string; its partners are `HandleGames`'s `status == 400 <==> !Present(genre)`, `GamesValidationTouchesNothing` and `DefaultedKeyMatchesExplicit` |
| CacheKeys.OrDefault | server.js:144-145 | a truthy query value is used as given; an absent or empty one becomes the fallback; its partner is `DefaultedKeyMatchesExplicit` |
| CacheKeys.GamesKey | server.js:83 | the games key is the prefix `genre:` followed by the genre itself |
| CacheKeys.PokemonKey | server.js:147 | the listing key is `pokemon:limit`, then the limit, then `:offset`, then the offset, in that order and nothing else |
| CacheKeys.GamesKeyInjective | server.js:83 | two genres share a key if and only if they are the same genre |
| CacheKeys.KeySchemesDisjoint | server.js:83-147 | no string is both a games key and a listing key |
| CacheKeys.DefaultedKeyMatchesExplicit | server.js:144-147 | omitted or empty `limit`/`offset` derive the same key as `limit=10&offset=0` |
| CacheKeys.PokemonKeyCollides | server.js:147 | for arbitrary strings, distinct (limit, offset) pairs can share a key |
| CacheKeys.PokemonKeyInjectiveOnDigits | server.js:147 | for digit-string parameters, equal keys imply equal limits and offsets |
| Handlers.SourceName | server.js:97-202 | each source has its own name: a cache hit is `redis`, the database `postgresql`, the upstream API `public-api`; every 200 body's `source` field is built from it |
| Handlers.ApiUrl | server.js:174 | the upstream URL is the listing endpoint, then `?limit=`, the limit, `&offset=` and the offset, in that order and nothing else |
| Handlers.NoResults | server.js:179-183 | the 404 test holds exactly when the body is missing or is not a non-empty listing, the only kind of listing the cache may hold |
| Handlers.GamesFailure | server.js:133-138 | every error caught in /games is a 500 that carries the error's message |
| Handlers.PokemonFailure | server.js:210-224 | an error caught in /pokemon is a 504 exactly when its code is `ECONNABORTED`, with the `Gateway timeout` / `Public API request timed out` envelope, and otherwise a 500 with the error's message |
| Handlers.HandleGames | server.js:71-140 | a 400 occurs exactly when the genre is missing or empty, with the `{error, require}` body, and the cache is unchanged; only a 200 from PostgreSQL changes the cache, and it does so by SETEX of the non-empty rows under `genre:<genre>` for 1200 s; a 200 from Redis serves the live entry; a 404 occurs exactly when the cache misses and the store answers zero rows, with the `No games found` envelope naming the genre; a failing cache read or query answers a 500 with that error's message; every answer other than 200 and 400 is an `{error, message}` envelope |
| Handlers.HandlePokemon | server.js:143-225 | only a 200 from the public API changes the cache, and it does so by SETEX of the non-empty upstream body under the defaulted key for 3600 s, with `count` equal to the number of results; a 200 from Redis serves the live entry; a 404 occurs exactly when the cache misses and the upstream body has no results, with the `No data found` envelope naming the defaulted limit and offset; every answer other than 200 is an `{error, message}` envelope |
| Handlers.HandleFlush | server.js:230-246 | a successful flush answers 200 with the `All cache entries cleared` body and leaves no key; a failing flush answers 500 with the error's message |
| Handlers.HandleKeys | server.js:249-265 | the listing holds every live key once, and `count` equals the number of keys returned; a failure answers 500 |
| HandlerProperties.GamesValidationTouchesNothing | server.js:75-80 | without a genre the answer is the same 400 whatever the cache, Redis or the database would do, and the cache is unchanged |
| HandlerProperties.GamesHitServesCache | server.js:87-101 | a games hit returns the stored payload from `redis`, leaves the cache unchanged and does not depend on the database |
| HandlerProperties.PokemonHitServesCache | server.js:151-166 | a listing hit returns the stored payload from `redis`, leaves the cache unchanged and does not depend on the upstream API |
| HandlerProperties.GamesNotFoundIsNotCached | server.js:110-115 | a miss with zero rows answers 404 and stores nothing, so the same request later misses again and answers the same |
| HandlerProperties.PokemonNotFoundIsNotCached | server.js:179-188 | a miss with a missing or empty upstream listing answers 404 and stores nothing, so the same request later misses again and answers the same |
| HandlerProperties.GamesMissThenHit | server.js:104-132 | a miss with rows stores them for 1200 s and changes no other key; a repeat within 1200 s is a hit with the same rows; after that the key is gone |
| HandlerProperties.PokemonMissThenHit | server.js:169-209 | a miss with results stores the body for 3600 s and changes no other key; a repeat within 3600 s is a hit with the same body; after that the key is gone |
| HandlerProperties.PokemonDefaultsMatchExplicit | server.js:144-147 | a request with omitted `limit`/`offset` behaves exactly like `limit=10&offset=0` |
| HandlerProperties.GamesFailuresAre500 | server.js:133-138 | a failing cache read, database query or cache write in /games answers 500 with that error's message and writes no entry |
| HandlerProperties.PokemonUpstreamFailure | server.js:210-224 | an upstream failure in /pokemon answers 504 exactly for a timeout and 500 otherwise, and writes no entry |
| HandlerProperties.PokemonFailuresMapped | server.js:149-224 | a throw from the cache read, the upstream call or the cache write in /pokemon is answered by the timeout-aware mapping of that error, and nothing is cached |
| HandlerProperties.FlushThenListKeys | server.js:230-265 | DELETE /cache followed by GET /cache/keys lists zero keys |
| Server.Step | server.js:71-246 | the clock advances only when time passes; a successful flush leaves no live key; any key a request makes newly live expires within 3600 s |
| Server.Run | server.js:71-246 | a run advances the clock by exactly the time its events let pass |
| Server.StepPreservesConsistent | server.js:110-118 | no request or clock advance stores an empty answer, a TTL over 3600 s, or a key outside the two schemes |
| Server.RunPreservesConsistent | server.js:110-191 | every run preserves cache consistency |
| Server.HitsServeNonEmptyAnswers | server.js:87-191 | after any run from an empty cache, a hit serves a non-empty payload of the kind its key scheme belongs to |

## Left out

- Express routing, CORS and JSON body parsing. Query values are modelled as absent or a single string, never an array.
- The real Redis, pg-promise and axios clients and their connection event handlers. They are foreign libraries, so their results and failures are parameters.
- The SQL text and its `ORDER BY release_year DESC`. The database owns the ordering, so rows are an opaque sequence.
- JSON `stringify`/`parse`. The cache stores structured payloads, so a round trip is the identity. As a result, the truthiness test on the cached string is always true for a present entry. A stored JSON text is never empty, so this loses nothing for entries the gateway itself writes.
- A JSON text that fails to parse on a hit. It cannot arise with structured payloads.
- `Date.now()` durations, `parseInt` of `limit`/`offset`, the echoed `genre`/`limit`/`offset` fields and all logging. These are wall-clock values, numeric formatting and output.
- Redis's lazy deletion of expired keys on access. It is not observable: every read treats an expired entry as absent.
- A SETEX or FLUSHALL call that throws is taken to leave the cache unchanged. A network error after the server applied the write is not modelled.
- Entries written by other Redis clients, including ones without an expiry. `Server.Consistent` is stated only for caches the gateway itself populated from empty.
- The startup connection sequence, the `listen` banner and SIGINT shutdown (server.js:268-294). These are process lifecycle and I/O.
- Concurrent interleavings and cache stampede. Each request is one atomic step, because the code has no locking to reason about.

=== FILE: base.dfy ===
/** Small shared vocabulary: optional values, the errors an awaited call can
    throw, and the outcome of one awaited call. */
module Base {

  /** A value that may be absent (an omitted query parameter, an empty cache slot). */
  datatype Option<+T> = None | Some(value: T)

  /** A thrown JavaScript error, reduced to the two fields the handlers read:
      `err.code` and `err.message`. */
  datatype Error = Error(code: string, message: string)

  /** The outcome of one awaited call: it either resolves to a value or throws. */
  datatype Attempt<+T> = Returned(value: T) | Threw(error: Error)
}

=== FILE: cache_keys.dfy ===
/** How the two read handlers turn query parameters into cache keys, and the
    JavaScript truthiness test they apply to query values. */
module CacheKeys {
  import opened Base

  const GamesPrefix: string := "genre:"
  const PokemonPrefix: string := "pokemon:limit"
  const OffsetInfix: string := ":offset"
  const DefaultLimit: string := "10"
  const DefaultOffset: string := "0"

  /** A query value is truthy when it was supplied and is not the empty
      string; an absent parameter is `undefined`, which is falsy. */
  function Present(q: Option<string>): (r: bool)
    ensures r <==> q != None && q != Some("")
  {
    q.Some? && q.value != ""
  }

  /** `q || fallback`: the supplied value when it is truthy, else the fallback. */
  function OrDefault(q: Option<string>, fallback: string): (r: string)
    ensures Present(q) ==> r == q.value
    ensures !Present(q) ==> r == fallback
  {
    if Present(q) then q.value else fallback
  }

  /** The key under which the games of one genre are cached. */
  function GamesKey(genre: string): (r: string)
    ensures |r| == |GamesPrefix| + |genre|
    ensures r[..|GamesPrefix|] == GamesPrefix && r[|GamesPrefix|..] == genre
  {
    GamesPrefix + genre
  }

  /** The key under which one page of the upstream listing is cached. */
  function PokemonKey(limit: string, offset: string): (r: string)
    ensures |r| == |PokemonPrefix| + |limit| + |OffsetInfix| + |offset|
    ensures r[..|PokemonPrefix|] == PokemonPrefix
    ensures r[|PokemonPrefix|..|PokemonPrefix| + |limit|] == limit
    ensures r[|PokemonPrefix| + |limit|..|PokemonPrefix| + |limit| + |OffsetInfix|] == OffsetInfix
    ensures r[|PokemonPrefix| + |limit| + |OffsetInfix|..] == offset
  {
    PokemonPrefix + limit + OffsetInfix + offset
  }

  /** True when `k` follows the games key scheme. */
  predicate IsGamesKey(k: string) {
    |GamesPrefix| <= |k| && k[..|GamesPrefix|] == GamesPrefix
  }

  /** True when `k` follows the paginated-listing key scheme. */
  predicate IsPokemonKey(k: string) {
    |PokemonPrefix| <= |k| && k[..|PokemonPrefix|] == PokemonPrefix
  }

  /** Distinct genres never share a cache key, and every genre's key is a
      games key. */
  lemma GamesKeyInjective(g1: string, g2: string)
    ensures GamesKey(g1) == GamesKey(g2) <==> g1 == g2
    ensures IsGamesKey(GamesKey(g1))
  {
    if GamesKey(g1) == GamesKey(g2) {
      assert g1 == GamesKey(g1)[|GamesPrefix|..];
    }
  }

  /** The two key schemes never overlap: no string is both a games key and a
      paginated-listing key. */
  lemma KeySchemesDisjoint(k: string)
    ensures !(IsGamesKey(k) && IsPokemonKey(k))
  {
    if IsGamesKey(k) {
      assert k[0] == GamesPrefix[0] == 'g';
    }
  }

  /** An omitted or empty `limit`/`offset` derives the same key as the
      explicit defaults `limit=10&offset=0`. */
  lemma DefaultedKeyMatchesExplicit(limit: Option<string>, offset: Option<string>)
    requires !Present(limit) && !Present(offset)
    ensures PokemonKey(OrDefault(limit, DefaultLimit), OrDefault(offset, DefaultOffset))
            == PokemonKey(OrDefault(Some("10"), DefaultLimit), OrDefault(Some("0"), DefaultOffset))
  {
  }

  /** With arbitrary strings the paginated-listing key is not injective: the
      limit "1:offset2" with offset "3" and the limit "1" with offset
      "2:offset3" share one key. */
  lemma PokemonKeyCollides()
    ensures PokemonKey("1:offset2", "3") == PokemonKey("1", "2:offset3")
  {
  }

  predicate IsDigit(c: char) {
    '0' <= c <= '9'
  }

  /** A non-empty string of decimal digits, as a numeric query value would be. */
  predicate DigitString(s: string) {
    |s| > 0 && forall i :: 0 <= i < |s| ==> IsDigit(s[i])
  }

  /** Under the added assumption that `limit` and `offset` are digit strings,
      distinct parameter pairs never share a key. */
  lemma {:induction false} PokemonKeyInjectiveOnDigits(l1: string, o1: string, l2: string, o2: string)
    requires DigitString(l1) && DigitString(o1) && DigitString(l2) && DigitString(o2)
    requires PokemonKey(l1, o1) == PokemonKey(l2, o2)
    ensures l1 == l2 && o1 == o2
  {
    var k1 := PokemonKey(l1, o1);
    var p := |PokemonPrefix|;
    var rest1 := l1 + OffsetInfix + o1;
    var rest2 := l2 + OffsetInfix + o2;
    assert k1[p..] == rest1;
    assert PokemonKey(l2, o2)[p..] == rest2;
    assert rest1 == rest2;
    // the first ':' of the suffix sits right after the limit's digits
    assert rest1[|l1|] == ':' && rest2[|l2|] == ':';
    assert forall i :: 0 <= i < |l1| ==> rest1[i] == l1[i] && rest1[i] != ':';
    assert forall i :: 0 <= i < |l2| ==> rest2[i] == l2[i] && rest2[i] != ':';
    assert |l1| == |l2|;
    assert l1 == rest1[..|l1|];
    assert l2 == rest2[..|l2|];
    var q := |l1| + |OffsetInfix|;
    assert o1 == rest1[q..];
    assert o2 == rest2[q..];
  }
}

=== FILE: cache_store.dfy ===
/** An abstract key-value store with expiring entries: the part of Redis the
    gateway relies on (GET, SETEX, FLUSHALL and KEYS "*"), over a logical
    clock counted in whole seconds. The store owns no business logic. */
module CacheStore {
  import opened Base

  /** Time to live, in seconds; SETEX refuses a non-positive expiry. */
  type Seconds = n: int | n > 0 witness 1

  /** A stored value together with the instant at which it stops being visible. */
  datatype Entry<V> = Entry(value: V, expiresAt: nat)

  /** The store's contents and its current clock. An entry whose expiry has
      been reached may still be present in `entries`, but no operation can
      observe it: expiry is passive. */
  datatype Store<V> = Store(entries: map<string, Entry<V>>, now: nat)

  /** An empty store at clock `now`. */
  function Empty<V>(now: nat): Store<V> {
    Store(map[], now)
  }

  /** True when `key` holds an entry that has not yet expired. */
  predicate Live<V>(s: Store<V>, key: string) {
    key in s.entries && s.now < s.entries[key].expiresAt
  }

  /** GET: the live value under `key`, or nothing. Reading never changes
      what later operations observe. */
  function Get<V>(s: Store<V>, key: string): (r: Option<V>)
    ensures r.Some? <==> Live(s, key)
    ensures r.Some? ==> r.value == s.entries[key].value
  {
    if Live(s, key) then Some(s.entries[key].value) else None
  }

  /** SETEX: store `value` under `key` for `ttl` seconds, replacing any
      previous entry. */
  function SetEx<V>(s: Store<V>, key: string, ttl: Seconds, value: V): (r: Store<V>)
    ensures r.now == s.now
    ensures Get(r, key) == Some(value)
    ensures r.entries[key].expiresAt == s.now + ttl
    ensures forall k :: k != key ==> Get(r, k) == Get(s, k)
    ensures r.entries.Keys == s.entries.Keys + {key}
  {
    Store(s.entries[key := Entry(value, s.now + ttl)], s.now)
  }

  /** FLUSHALL: remove every entry, whatever its key or remaining lifetime. */
  function FlushAll<V>(s: Store<V>): (r: Store<V>)
    ensures r.now == s.now
    ensures forall k :: Get(r, k) == None
    ensures LiveKeys(r) == {}
  {
    Empty(s.now)
  }

  /** The passing of `seconds` seconds; entries are kept but may expire. */
  function Advance<V>(s: Store<V>, seconds: nat): (r: Store<V>)
    ensures r.entries == s.entries
    ensures r.now == s.now + seconds
    ensures forall k :: Live(r, k) ==> Live(s, k)
  {
    Store(s.entries, s.now + seconds)
  }

  /** The keys KEYS "*" can report: exactly the live ones. */
  function LiveKeys<V>(s: Store<V>): (r: set<string>)
    ensures forall k :: k in r <==> Live(s, k)
  {
    set k | k in s.entries && Live(s, k)
  }

  /** The distinct elements of a list of keys, as a set. */
  function Elements(xs: seq<string>): set<string> {
    set x | x in xs
  }

  /** A list that names no key twice. */
  predicate Distinct(xs: seq<string>) {
    forall i, j :: 0 <= i < j < |xs| ==> xs[i] != xs[j]
  }

  /** KEYS "*": every live key exactly once, in no promised order. */
  method Keys<V>(s: Store<V>) returns (keys: seq<string>)
    ensures Elements(keys) == LiveKeys(s)
    ensures Distinct(keys)
    ensures |keys| == |LiveKeys(s)|
  {
    var remaining := LiveKeys(s);
    keys := [];
    while remaining != {}
      invariant Elements(keys) + remaining == LiveKeys(s)
      invariant Elements(keys) !! remaining
      invariant Distinct(keys)
      invariant |keys| + |remaining| == |LiveKeys(s)|
      decreases remaining
    {
      var k :| k in remaining;
      keys := keys + [k];
      remaining := remaining - {k};
    }
  }

  /** A value written by SETEX is read back unchanged until its TTL has
      elapsed, and is gone from then on. */
  lemma GetAfterSetEx<V>(s: Store<V>, key: string, ttl: Seconds, value: V, elapsed: nat)
    ensures Get(Advance(SetEx(s, key, ttl, value), elapsed), key)
            == if elapsed < ttl then Some(value) else None
  {
  }

  /** FLUSHALL is idempotent: flushing an already flushed store changes nothing. */
  lemma FlushAllIdempotent<V>(s: Store<V>)
    ensures FlushAll(FlushAll(s)) == FlushAll(s)
  {
  }
}

=== FILE: handler_properties.dfy ===
/** Properties relating several calls of the handlers: what a hit, a miss,
    an empty answer and a failure leave behind, and how a later request
    sees it. */
module HandlerProperties {
  import opened Base
  import opened CacheStore
  import opened CacheKeys
  import opened Handlers

  /** A healthy Redis connection: neither GET nor SETEX throws. */
  const Healthy: CacheFaults := CacheFaults(None, None)

  /** Without a genre the answer is the same 400 whatever the cache holds,
      however Redis behaves and whatever the relational store would answer,
      and the cache is left as it was. */
  lemma GamesValidationTouchesNothing(s1: Cache, s2: Cache, genre: Option<string>,
                                      f1: CacheFaults, f2: CacheFaults,
                                      db1: string -> Attempt<seq<Row>>, db2: string -> Attempt<seq<Row>>)
    requires !Present(genre)
    ensures HandleGames(s1, genre, f1, db1).response == HandleGames(s2, genre, f2, db2).response
    ensures HandleGames(s1, genre, f1, db1).response.status == 400
    ensures HandleGames(s1, genre, f1, db1).cache == s1
  {
  }

  /** A games cache hit serves the stored payload with source "redis",
      never consults the relational store and leaves the cache unchanged. */
  lemma GamesHitServesCache(s: Cache, genre: string, f: CacheFaults,
                            db1: string -> Attempt<seq<Row>>, db2: string -> Attempt<seq<Row>>, p: Payload)
    requires genre != "" && f.onGet.None?
    requires Get(s, GamesKey(genre)) == Some(p)
    ensures HandleGames(s, Some(genre), f, db1) == Handled(Response(200, Data(SourceName(Redis), p, None, None)), s)
    ensures HandleGames(s, Some(genre), f, db1) == HandleGames(s, Some(genre), f, db2)
  {
  }

  /** A paginated-listing cache hit serves the stored payload with source
      "redis", never calls the upstream API and leaves the cache unchanged. */
  lemma PokemonHitServesCache(s: Cache, limit: Option<string>, offset: Option<string>, f: CacheFaults,
                              api1: string -> Attempt<Option<ApiBody>>, api2: string -> Attempt<Option<ApiBody>>,
                              p: Payload)
    requires f.onGet.None?
    requires Get(s, PokemonKey(OrDefault(limit, DefaultLimit), OrDefault(offset, DefaultOffset))) == Some(p)
    ensures HandlePokemon(s, limit, offset, f, api1) == Handled(Response(200, Data(SourceName(Redis), p, None, None)), s)
    ensures HandlePokemon(s, limit, offset, f, api1) == HandlePokemon(s, limit, offset, f, api2)
  {
  }

  /** A miss for a genre with no rows is a 404 that caches nothing, so the
      same request made any number of seconds later misses again and asks
      the store again. */
  lemma GamesNotFoundIsNotCached(s: Cache, genre: string, f: CacheFaults,
                                 db: string -> Attempt<seq<Row>>, elapsed: nat)
    requires genre != "" && f.onGet.None?
    requires Get(s, GamesKey(genre)) == None && db(genre) == Returned([])
    ensures HandleGames(s, Some(genre), f, db).response.status == 404
    ensures HandleGames(s, Some(genre), f, db).cache == s
    ensures Get(Advance(s, elapsed), GamesKey(genre)) == None
    ensures HandleGames(Advance(s, elapsed), Some(genre), f, db).response
            == HandleGames(s, Some(genre), f, db).response
  {
  }

  /** A miss answered by a missing or empty upstream listing is a 404 that
      caches nothing, so the same request made any number of seconds later
      misses again. */
  lemma PokemonNotFoundIsNotCached(s: Cache, limit: Option<string>, offset: Option<string>, f: CacheFaults,
                                   api: string -> Attempt<Option<ApiBody>>, elapsed: nat)
    requires var l := OrDefault(limit, DefaultLimit);
             var o := OrDefault(offset, DefaultOffset);
             && f.onGet.None? && Get(s, PokemonKey(l, o)) == None
             && api(ApiUrl(l, o)).Returned? && NoResults(api(ApiUrl(l, o)).value)
    ensures HandlePokemon(s, limit, offset, f, api).response.status == 404
    ensures HandlePokemon(s, limit, offset, f, api).cache == s
    ensures Get(Advance(s, elapsed), PokemonKey(OrDefault(limit, DefaultLimit), OrDefault(offset, DefaultOffset))) == None
    ensures HandlePokemon(Advance(s, elapsed), limit, offset, f, api).response
            == HandlePokemon(s, limit, offset, f, api).response
  {
  }

  /** A games miss with rows stores them under "genre:<genre>" for 1200
      seconds and changes no other key; the same request within those
      seconds is a hit serving the same rows without asking the store, and
      once they have passed it misses again. */
  lemma GamesMissThenHit(s: Cache, genre: string, rows: seq<Row>,
                         db: string -> Attempt<seq<Row>>, f2: CacheFaults,
                         db2: string -> Attempt<seq<Row>>, elapsed: nat)
    requires genre != "" && |rows| > 0 && db(genre) == Returned(rows)
    requires Get(s, GamesKey(genre)) == None
    requires f2.onGet.None?
    ensures var first := HandleGames(s, Some(genre), Healthy, db);
            && first.response == Response(200, Data(SourceName(Postgresql), GameRows(rows), Some(|rows|), None))
            && (forall k :: k != GamesKey(genre) ==> Get(first.cache, k) == Get(s, k))
            && (elapsed < GamesTtl ==>
                  HandleGames(Advance(first.cache, elapsed), Some(genre), f2, db2)
                  == Handled(Response(200, Data(SourceName(Redis), GameRows(rows), None, None)), Advance(first.cache, elapsed)))
            && (elapsed >= GamesTtl ==>
                  Get(Advance(first.cache, elapsed), GamesKey(genre)) == None)
  {
    var first := HandleGames(s, Some(genre), Healthy, db);
    GetAfterSetEx(s, GamesKey(genre), GamesTtl, GameRows(rows), elapsed);
  }

  /** A paginated-listing miss with results stores the upstream body under
      its key for 3600 seconds and changes no other key; the same request
      within those seconds is a hit serving the same body without calling
      the API, and once they have passed it misses again. */
  lemma PokemonMissThenHit(s: Cache, limit: Option<string>, offset: Option<string>, body: ApiBody,
                           api: string -> Attempt<Option<ApiBody>>, f2: CacheFaults,
                           api2: string -> Attempt<Option<ApiBody>>, elapsed: nat)
    requires var l := OrDefault(limit, DefaultLimit);
             var o := OrDefault(offset, DefaultOffset);
             && api(ApiUrl(l, o)) == Returned(Some(body))
             && !NoResults(Some(body))
             && Get(s, PokemonKey(l, o)) == None
    requires f2.onGet.None?
    ensures var key := PokemonKey(OrDefault(limit, DefaultLimit), OrDefault(offset, DefaultOffset));
            var first := HandlePokemon(s, limit, offset, Healthy, api);
            && first.response == Response(200, Data(SourceName(PublicApi), ApiData(body), Some(|body.results.value|), body.count))
            && (forall k :: k != key ==> Get(first.cache, k) == Get(s, k))
            && (elapsed < PokemonTtl ==>
                  HandlePokemon(Advance(first.cache, elapsed), limit, offset, f2, api2)
                  == Handled(Response(200, Data(SourceName(Redis), ApiData(body), None, None)), Advance(first.cache, elapsed)))
            && (elapsed >= PokemonTtl ==>
                  Get(Advance(first.cache, elapsed), key) == None)
  {
    var key := PokemonKey(OrDefault(limit, DefaultLimit), OrDefault(offset, DefaultOffset));
    GetAfterSetEx(s, key, PokemonTtl, ApiData(body), elapsed);
  }

  /** An omitted or empty `limit`/`offset` behaves exactly like
      `limit=10&offset=0`: same key, same upstream URL, same response and
      same resulting cache. */
  lemma PokemonDefaultsMatchExplicit(s: Cache, limit: Option<string>, offset: Option<string>,
                                     f: CacheFaults, api: string -> Attempt<Option<ApiBody>>)
    requires !Present(limit) && !Present(offset)
    ensures HandlePokemon(s, limit, offset, f, api) == HandlePokemon(s, Some("10"), Some("0"), f, api)
  {
    DefaultedKeyMatchesExplicit(limit, offset);
  }

  /** In /games every thrown error, from the cache read, the relational
      query or the cache write, is a 500 carrying that error's message, and
      none of them leaves a cache entry behind. */
  lemma GamesFailuresAre500(s: Cache, genre: string, f: CacheFaults, db: string -> Attempt<seq<Row>>, e: Error)
    requires genre != ""
    requires var miss := f.onGet.None? && Get(s, GamesKey(genre)) == None;
             || f.onGet == Some(e)
             || (miss && db(genre) == Threw(e))
             || (miss && db(genre).Returned? && |db(genre).value| > 0 && f.onSet == Some(e))
    ensures HandleGames(s, Some(genre), f, db).response == GamesFailure(e)
    ensures HandleGames(s, Some(genre), f, db).response.status == 500
    ensures HandleGames(s, Some(genre), f, db).cache == s
  {
  }

  /** In /pokemon an upstream error is a 504 exactly when its code is the
      timeout code and a 500 otherwise; either way nothing is cached. */
  lemma PokemonUpstreamFailure(s: Cache, limit: Option<string>, offset: Option<string>,
                               api: string -> Attempt<Option<ApiBody>>, e: Error)
    requires var l := OrDefault(limit, DefaultLimit);
             var o := OrDefault(offset, DefaultOffset);
             Get(s, PokemonKey(l, o)) == None && api(ApiUrl(l, o)) == Threw(e)
    ensures var r := HandlePokemon(s, limit, offset, Healthy, api);
            && (r.response.status == 504 <==> e.code == TimeoutCode)
            && (r.response.status == 500 <==> e.code != TimeoutCode)
            && r.cache == s
  {
  }

  /** In /pokemon a throw from the cache read, the upstream call or the
      cache write goes through one catch block: the response is the
      timeout-aware mapping of that error, and nothing is cached. */
  lemma PokemonFailuresMapped(s: Cache, limit: Option<string>, offset: Option<string>, f: CacheFaults,
                              api: string -> Attempt<Option<ApiBody>>, e: Error)
    requires var l := OrDefault(limit, DefaultLimit);
             var o := OrDefault(offset, DefaultOffset);
             var miss := f.onGet.None? && Get(s, PokemonKey(l, o)) == None;
             || f.onGet == Some(e)
             || (miss && api(ApiUrl(l, o)) == Threw(e))
             || (miss && api(ApiUrl(l, o)).Returned? && !NoResults(api(ApiUrl(l, o)).value) && f.onSet == Some(e))
    ensures HandlePokemon(s, limit, offset, f, api).response == PokemonFailure(e)
    ensures HandlePokemon(s, limit, offset, f, api).cache == s
  {
  }

  /** DELETE /cache followed by GET /cache/keys lists no key at all. */
  method FlushThenListKeys(s: Cache) returns (resp: Response)
    ensures resp == Response(200, KeyListing(0, []))
  {
    var flushed := HandleFlush(s, None);
    resp := HandleKeys(flushed.cache, None);
  }
}

=== FILE: handlers.dfy ===
/** The four cache-related HTTP handlers as step functions. Every awaited
    call is a parameter: the Redis client's failures (`CacheFaults`), the
    relational query (`db`, applied to the genre) and the upstream HTTP
    call (`api`, applied to the request URL). Each handler returns the
    response it sends together with the cache state it leaves behind. */
module Handlers {
  import opened Base
  import opened CacheStore
  import opened CacheKeys

  /** Seconds a games entry lives (`setEx(..., 1200, ...)`). */
  const GamesTtl: Seconds := 1200
  /** Seconds a paginated-listing entry lives (`setEx(..., 3600, ...)`). */
  const PokemonTtl: Seconds := 3600
  /** The error code axios gives a request that exceeded its timeout. */
  const TimeoutCode: string := "ECONNABORTED"
  const ApiBase: string := "https://pokeapi.co/api/v2/pokemon"

  /** A relational row, passed through verbatim: column name to value. */
  datatype Row = Row(columns: map<string, string>)

  /** One element of the upstream listing's `results`. */
  datatype Item = Item(name: string, url: string)

  /** The upstream response body: `results` and `count` may each be missing. */
  datatype ApiBody = ApiBody(results: Option<seq<Item>>, count: Option<int>)

  /** What the handlers store in the cache. Serialisation is the identity:
      the JSON text round-trips to the value that was written. */
  datatype Payload = GameRows(rows: seq<Row>) | ApiData(body: ApiBody)

  /** Where a 200 response's data came from. */
  datatype Source = Redis | Postgresql | PublicApi

  /** The JSON body of a response. A 200's `source` is the string the
      server sends, one of the names `SourceName` gives. */
  datatype Body =
    | Data(source: string, payload: Payload, resultCount: Option<nat>, totalAvailable: Option<int>)
    | ErrorBody(error: string, message: string)
    | MissingParameter(error: string, require: string)
    | Cleared(message: string)
    | KeyListing(count: nat, keys: seq<string>)

  datatype Response = Response(status: int, body: Body)

  /** The response a handler sends and the cache it leaves. */
  datatype Handled = Handled(response: Response, cache: Store<Payload>)

  /** Which Redis calls throw during one request. */
  datatype CacheFaults = CacheFaults(onGet: Option<Error>, onSet: Option<Error>)

  type Cache = Store<Payload>

  /** True when `resp` is a 200 whose data came from `src`. */
  predicate Served(resp: Response, src: Source) {
    resp.status == 200 && resp.body.Data? && resp.body.source == SourceName(src)
  }

  /** The `source` string of a 200 response. */
  function SourceName(src: Source): (r: string)
    ensures r in {"redis", "postgresql", "public-api"}
    ensures r == "redis" <==> src == Redis
    ensures r == "postgresql" <==> src == Postgresql
    ensures r == "public-api" <==> src == PublicApi
  {
    match src
    case Redis => "redis"
    case Postgresql => "postgresql"
    case PublicApi => "public-api"
  }

  /** True when a payload holds at least one row or listing result. */
  predicate NonEmpty(p: Payload) {
    match p
    case GameRows(rows) => |rows| > 0
    case ApiData(body) => body.results.Some? && |body.results.value| > 0
  }

  /** The upstream URL requested for one page. */
  function ApiUrl(limit: string, offset: string): (r: string)
    ensures |r| == |ApiBase| + |"?limit="| + |limit| + |"&offset="| + |offset|
    ensures r[..|ApiBase|] == ApiBase
    ensures r[|ApiBase|..|ApiBase| + |"?limit="|] == "?limit="
    ensures r[|ApiBase| + |"?limit="|..|ApiBase| + |"?limit="| + |limit|] == limit
    ensures r[|ApiBase| + |"?limit="| + |limit|..|ApiBase| + |"?limit="| + |limit| + |"&offset="|] == "&offset="
    ensures r[|ApiBase| + |"?limit="| + |limit| + |"&offset="|..] == offset
  {
    ApiBase + "?limit=" + limit + "&offset=" + offset
  }

  /** The `/games` catch block: every thrown error is a 500. */
  function GamesFailure(e: Error): (r: Response)
    ensures r.status == 500 && r.body.ErrorBody? && r.body.message == e.message
  {
    Response(500, ErrorBody("Internal server error", e.message))
  }

  /** The `/pokemon` catch block: a timeout is a 504, anything else a 500. */
  function PokemonFailure(e: Error): (r: Response)
    ensures r.status == 504 <==> e.code == TimeoutCode
    ensures r.status == 500 <==> e.code != TimeoutCode
    ensures r.status == 500 ==> r.body == ErrorBody("Internal server error", e.message)
    ensures r.status == 504 ==> r.body == ErrorBody("Gateway timeout", "Public API request timed out")
  {
    if e.code == TimeoutCode then
      Response(504, ErrorBody("Gateway timeout", "Public API request timed out"))
    else
      Response(500, ErrorBody("Internal server error", e.message))
  }

  /** GET /games?genre=...: validate, read the cache, on a miss query the
      relational store and cache a non-empty answer for 1200 seconds. */
  function HandleGames(s: Cache, genre: Option<string>, faults: CacheFaults,
                       db: string -> Attempt<seq<Row>>): (r: Handled)
    // a missing or empty genre is a 400 and touches nothing
    ensures r.response.status == 400 <==> !Present(genre)
    ensures r.response.status in {200, 400, 404, 500}
    // only a fresh origin answer writes, and it writes exactly its own key
    ensures r.cache != s ==> Served(r.response, Postgresql)
    ensures Served(r.response, Postgresql) ==>
              && Present(genre)
              && r.cache == SetEx(s, GamesKey(genre.value), GamesTtl, r.response.body.payload)
              && NonEmpty(r.response.body.payload)
              && r.response.body.payload.GameRows?
              && db(genre.value) == Returned(r.response.body.payload.rows)
              && r.response.body.resultCount == Some(|r.response.body.payload.rows|)
    // a 200 from the cache serves the live entry under the genre's key
    ensures Served(r.response, Redis) ==>
              Present(genre) && Get(s, GamesKey(genre.value)) == Some(r.response.body.payload)
    ensures r.response.status == 200 ==> Served(r.response, Redis) || Served(r.response, Postgresql)
    ensures r.response.status == 400 ==> r.response.body.MissingParameter? && r.cache == s
    // every answer other than a 200 or a 400 is an `{error, message}` envelope
    ensures r.response.status !in {200, 400} ==> r.response.body.ErrorBody?
    ensures r.response.status == 404 ==>
              r.response.body == ErrorBody("No games found", "No games found for genre: " + genre.value)
    // a 404 happens exactly when the cache missed and the store answered no rows
    ensures r.response.status == 404 ==>
              Present(genre) && Get(s, GamesKey(genre.value)) == None && db(genre.value) == Returned([])
    ensures Present(genre) && faults.onGet.None? && Get(s, GamesKey(genre.value)) == None
            && db(genre.value) == Returned([]) ==>
              r.response.status == 404 && r.cache == s
    // a 500 carries the message of the error that was thrown
    ensures Present(genre) && faults.onGet.Some? ==>
              r.response == GamesFailure(faults.onGet.value) && r.cache == s
    ensures Present(genre) && faults.onGet.None? && Get(s, GamesKey(genre.value)) == None
            && db(genre.value).Threw? ==>
              r.response == GamesFailure(db(genre.value).error) && r.cache == s
  {
    if !Present(genre) then
      Handled(Response(400, MissingParameter("Missing required parameter",
                                      "Please provide a genre for the game(e.g., ?genre=Action)")), s)
    else
      var g := genre.value;
      var key := GamesKey(g);
      if faults.onGet.Some? then Handled(GamesFailure(faults.onGet.value), s)
      else match Get(s, key)
        case Some(cached) => Handled(Response(200, Data(SourceName(Redis), cached, None, None)), s)
        case None =>
          match db(g)
          case Threw(e) => Handled(GamesFailure(e), s)
          case Returned(rows) =>
            if |rows| == 0 then
              Handled(Response(404, ErrorBody("No games found", "No games found for genre: " + g)), s)
            else if faults.onSet.Some? then
              Handled(GamesFailure(faults.onSet.value), s)
            else
              var answer := GameRows(rows);
              Handled(Response(200, Data(SourceName(Postgresql), answer, Some(|rows|), None)),
                      SetEx(s, key, GamesTtl, answer))
  }

  /** True when the upstream body has no `data`, no `results`, or no results. */
  function NoResults(data: Option<ApiBody>): (r: bool)
    ensures data.None? ==> r
    ensures data.Some? ==> (r <==> !NonEmpty(ApiData(data.value)))
  {
    data.None? || data.value.results.None? || |data.value.results.value| == 0
  }

  /** GET /pokemon?limit=...&offset=...: default the parameters, read the
      cache, on a miss call the upstream API and cache a non-empty answer
      for 3600 seconds. */
  function HandlePokemon(s: Cache, limitParam: Option<string>, offsetParam: Option<string>,
                         faults: CacheFaults, api: string -> Attempt<Option<ApiBody>>): (r: Handled)
    ensures r.response.status in {200, 404, 500, 504}
    // every answer other than a 200 is an `{error, message}` envelope
    ensures r.response.status != 200 ==> r.response.body.ErrorBody?
    ensures r.response.status == 404 ==>
              r.response.body == ErrorBody("No data found",
                                           "No pokemon found for limit: " + OrDefault(limitParam, DefaultLimit)
                                           + " and offset: " + OrDefault(offsetParam, DefaultOffset))
    ensures r.cache != s ==> Served(r.response, PublicApi)
    ensures Served(r.response, PublicApi) ==>
              var limit := OrDefault(limitParam, DefaultLimit);
              var offset := OrDefault(offsetParam, DefaultOffset);
              && r.cache == SetEx(s, PokemonKey(limit, offset), PokemonTtl, r.response.body.payload)
              && NonEmpty(r.response.body.payload)
              && r.response.body.payload.ApiData?
              && api(ApiUrl(limit, offset)) == Returned(Some(r.response.body.payload.body))
              && r.response.body.resultCount == Some(|r.response.body.payload.body.results.value|)
    ensures Served(r.response, Redis) ==>
              Get(s, PokemonKey(OrDefault(limitParam, DefaultLimit), OrDefault(offsetParam, DefaultOffset)))
                == Some(r.response.body.payload)
    ensures r.response.status == 200 ==> Served(r.response, Redis) || Served(r.response, PublicApi)
    ensures r.response.status == 404 ==>
              var limit := OrDefault(limitParam, DefaultLimit);
              var offset := OrDefault(offsetParam, DefaultOffset);
              && Get(s, PokemonKey(limit, offset)) == None
              && api(ApiUrl(limit, offset)).Returned?
              && NoResults(api(ApiUrl(limit, offset)).value)
    ensures var limit := OrDefault(limitParam, DefaultLimit);
            var offset := OrDefault(offsetParam, DefaultOffset);
            faults.onGet.None? && Get(s, PokemonKey(limit, offset)) == None
            && api(ApiUrl(limit, offset)).Returned? && NoResults(api(ApiUrl(limit, offset)).value) ==>
              r.response.status == 404 && r.cache == s
  {
    var limit := OrDefault(limitParam, DefaultLimit);
    var offset := OrDefault(offsetParam, DefaultOffset);
    var key := PokemonKey(limit, offset);
    if faults.onGet.Some? then Handled(PokemonFailure(faults.onGet.value), s)
    else match Get(s, key)
      case Some(cached) => Handled(Response(200, Data(SourceName(Redis), cached, None, None)), s)
      case None =>
        match api(ApiUrl(limit, offset))
        case Threw(e) => Handled(PokemonFailure(e), s)
        case Returned(data) =>
          if NoResults(data) then
            Handled(Response(404, ErrorBody("No data found",
                                            "No pokemon found for limit: " + limit + " and offset: " + offset)), s)
          else if faults.onSet.Some? then
            Handled(PokemonFailure(faults.onSet.value), s)
          else
            var body := data.value;
            Handled(Response(200, Data(SourceName(PublicApi), ApiData(body), Some(|body.results.value|), body.count)),
                    SetEx(s, key, PokemonTtl, ApiData(body)))
  }

  /** DELETE /cache: flush every entry; a failing flush is a 500 and is
      taken to leave the cache as it was. */
  function HandleFlush(s: Cache, fault: Option<Error>): (r: Handled)
    ensures fault.None? ==> r.response.status == 200 && LiveKeys(r.cache) == {} && r.cache.now == s.now
    ensures fault.None? ==> r.response.body == Cleared("All cache entries cleared")
    ensures fault.Some? ==> r.response.status == 500 && r.cache == s
                            && r.response.body == ErrorBody("Failed to flush cache", fault.value.message)
  {
    if fault.None? then
      Handled(Response(200, Cleared("All cache entries cleared")), FlushAll(s))
    else
      Handled(Response(500, ErrorBody("Failed to flush cache", fault.value.message)), s)
  }

  /** GET /cache/keys: list every live key once, with its count. */
  method HandleKeys(s: Cache, fault: Option<Error>) returns (resp: Response)
    ensures fault.Some? ==> resp == Response(500, ErrorBody("Failed to retrieve keys", fault.value.message))
    ensures fault.None? ==>
              && resp.status == 200
              && resp.body.KeyListing?
              && Elements(resp.body.keys) == LiveKeys(s)
              && Distinct(resp.body.keys)
              && resp.body.count == |resp.body.keys| == |LiveKeys(s)|
  {
    if fault.Some? {
      resp := Response(500, ErrorBody("Failed to retrieve keys", fault.value.message));
    } else {
      var keys := Keys(s);
      resp := Response(200, KeyListing(|keys|, keys));
    }
  }
}

=== FILE: server.dfy ===
/** The gateway as a state machine over its cache: a run is a sequence of
    requests to the cache-related endpoints interleaved with the passing of
    time. Listing keys reads the cache without changing it, so it is not an
    event here. */
module Server {
  import opened Base
  import opened CacheStore
  import opened CacheKeys
  import opened Handlers

  /** One thing that can happen to the cache. Each request carries the
      behaviour of the collaborators it would call. */
  datatype Event =
    | GamesRequest(genre: Option<string>, faults: CacheFaults, db: string -> Attempt<seq<Row>>)
    | PokemonRequest(limit: Option<string>, offset: Option<string>, faults: CacheFaults,
                     api: string -> Attempt<Option<ApiBody>>)
    | FlushRequest(fault: Option<Error>)
    | Elapse(seconds: nat)

  /** The longest TTL any handler uses. */
  const MaxTtl: nat := PokemonTtl

  /** Seconds of clock time a run lets pass. */
  function Elapsed(events: seq<Event>): nat {
    if events == [] then 0
    else (if events[0].Elapse? then events[0].seconds else 0) + Elapsed(events[1..])
  }

  /** The cache after one event. Requests take no time on the logical clock. */
  function Step(s: Cache, e: Event): (r: Cache)
    ensures r.now == s.now + Elapsed([e])
    ensures e.FlushRequest? && e.fault.None? ==> LiveKeys(r) == {}
    ensures !e.Elapse? ==> forall k :: k in LiveKeys(r) - LiveKeys(s) ==> k in r.entries && r.entries[k].expiresAt <= r.now + MaxTtl
  {
    assert [e][1..] == [];
    match e
    case GamesRequest(genre, faults, db) => HandleGames(s, genre, faults, db).cache
    case PokemonRequest(limit, offset, faults, api) => HandlePokemon(s, limit, offset, faults, api).cache
    case FlushRequest(fault) => HandleFlush(s, fault).cache
    case Elapse(seconds) => Advance(s, seconds)
  }

  /** The cache after a whole run of events. */
  function Run(s: Cache, events: seq<Event>): (r: Cache)
    ensures r.now == s.now + Elapsed(events)
    decreases |events|
  {
    if events == [] then s else Run(Step(s, events[0]), events[1..])
  }

  /** What every cached entry looks like: it holds a non-empty origin answer,
      it expires no later than the longest TTL from now, its key follows
      one of the two schemes, and the scheme matches the payload's kind. */
  predicate EntryOk(key: string, e: Entry<Payload>, now: nat) {
    && NonEmpty(e.value)
    && e.expiresAt <= now + MaxTtl
    && (IsGamesKey(key) || IsPokemonKey(key))
    && (IsGamesKey(key) <==> e.value.GameRows?)
  }

  /** Every entry of the cache is well formed. */
  predicate Consistent(s: Cache) {
    forall k :: k in s.entries ==> EntryOk(k, s.entries[k], s.now)
  }

  /** A freshly started, empty cache is consistent. */
  lemma EmptyIsConsistent(now: nat)
    ensures Consistent(Empty<Payload>(now))
  {
  }

  /** No event breaks consistency. */
  lemma StepPreservesConsistent(s: Cache, e: Event)
    requires Consistent(s)
    ensures Consistent(Step(s, e))
  {
    var r := Step(s, e);
    match e
    case GamesRequest(genre, faults, db) =>
      if r != s {
        var key := GamesKey(genre.value);
        GamesKeyInjective(genre.value, genre.value);
        assert r.entries == s.entries[key := r.entries[key]];
      }
    case PokemonRequest(limit, offset, faults, api) =>
      if r != s {
        var key := PokemonKey(OrDefault(limit, DefaultLimit), OrDefault(offset, DefaultOffset));
        KeySchemesDisjoint(key);
        assert r.entries == s.entries[key := r.entries[key]];
      }
    case FlushRequest(fault) =>
    case Elapse(seconds) =>
  }

  /** No run of events breaks consistency: the cache never holds an empty
      answer, an entry living longer than 3600 seconds, a key outside the
      two schemes, or a payload of the wrong kind for its key. */
  lemma {:induction false} RunPreservesConsistent(s: Cache, events: seq<Event>)
    requires Consistent(s)
    ensures Consistent(Run(s, events))
    decreases |events|
  {
    if events != [] {
      StepPreservesConsistent(s, events[0]);
      RunPreservesConsistent(Step(s, events[0]), events[1..]);
    }
  }

  /** Whatever has happened since an empty start, a cache hit serves a
      non-empty payload whose kind matches the requested endpoint. */
  lemma HitsServeNonEmptyAnswers(now: nat, events: seq<Event>, key: string)
    requires Get(Run(Empty<Payload>(now), events), key).Some?
    ensures var p := Get(Run(Empty<Payload>(now), events), key).value;
            NonEmpty(p) && (IsGamesKey(key) <==> p.GameRows?) && (IsGamesKey(key) || IsPokemonKey(key))
  {
    EmptyIsConsistent(now);
    RunPreservesConsistent(Empty<Payload>(now), events);
  }
}
